=== FILE: README.md ===
# Vacation-rental front end: wizard and modal state machines in Dafny

This project models the interactive logic of a vacation-rental marketplace front end as pure
transition functions over explicit state records, and proves properties of them with Dafny.
HTTP calls, routing and the auth provider become effect tags (`Post`, `Patch`, `DeleteListing`,
`Navigate`, `Close`, `Refresh`, `OpenLogin`, `OpenRent`, `OpenRegister`, `SignOut`). A request's
result is an `Outcome` parameter, `Succeeded` or `Failed`.

What is modelled:

- **Listing wizards** (`ListingWizard`, `RentModal`, `EditPropertyModal`). Both wizards have six
  steps, CATEGORY to PRICE. Each page has its own forward gate. Back closes the modal on the
  first step and steps back otherwise. Next is an unbounded increment. The price page's button
  submits instead of advancing. The create wizard POSTs; its submit has a step guard. The edit
  wizard PATCHes the listing it was opened with and has no step guard. Its defaults are copied
  from the listing. Its missing-data branch (`EditPropertyModal.Init(None)`, a submit that sends
  nothing) cannot be reached from the UI: the component reads `listingData.title` while rendering
  (components/modals/edit-property-modal.tsx:418), and the page mounts it only with a payload
  (app/properties/PropertiesClient.tsx:162). The model keeps the branch as the code writes it. The step counter is kept as an integer, as in
  the component, and the model proves that enabled actions keep it within `0..5`.
- **Search wizard** (`SearchModal`). Three steps: LOCATION, DATE, INFO. Back is offered only away
  from the first step. Forward is gated on a location and on a non-zero night count. Submit merges
  the search into the current URL query, returns to the first step, closes the modal and
  navigates.
- **Modal stores** (`ModalStore`). The property store and the alert store are the same two-field
  store, so it is defined once. The model proves it is open exactly when it holds a payload.
- **Properties page** (`PropertiesClient`). It finds a listing by id, projects it to the twelve
  payload fields, opens the stores, and runs the delete confirmation. The model proves that the
  alert on screen always shows the listing a confirm deletes. It also proves that `deletingId` is
  never anything but `''`. So a card is disabled only if its id is empty: the page resets the flag
  but never sets it.
- **Listing card, user menu, category bar** (`ListingCard`, `UserMenu`, `Categories`). The card's
  price choice, subtitle, button visibility and disabled guards. The menu's toggle, the rent
  shortcut, and which items close the menu. The fixed 15-entry category table and how the bar
  highlights a category.

Behaviour of the code worth knowing:

- The price gate is JavaScript truthiness of the price field (`!price`). The create form keeps
  the price as a string, so the string `"0"` passes the gate.
- The first-step branch of the create wizard's `onBack` closes the modal. No rendered button
  reaches it: the category page shows Back only when a secondary label exists, and the first step
  has none (`ListingWizard.BackShownExactly`).
- The search wizard's `onBack` decrements without a check of its own. Only the hidden Back button
  on the first step keeps the counter from going negative.
- The properties page's `editingId` is recorded by `onEdit` but read by nothing else on the page.

## Model

| member | source | states |
|---|---|---|
| ListingWizard.StepAt | components/modals/rent-modal.tsx:21-28 | a counter value names a step exactly when it is in 0..5, and the step's enum value is that counter |
| ListingWizard.StepAtIndex | components/modals/rent-modal.tsx:21-28 | every step's enum value decodes back to that step |
| ListingWizard.Page | components/modals/rent-modal.tsx:160-370 | the page rendered is the step's own page for 0..5 and the category page for any other counter |
| ListingWizard.SecondaryLabel | components/modals/rent-modal.tsx:140-158 | the back label is undefined exactly off steps 1..5, so it is undefined on CATEGORY |
| ListingWizard.SecondaryLabelNamesPrevious | components/modals/rent-modal.tsx:140-158 | on steps 1..5 the back label is "Back to " followed by the name of the previous step |
| ListingWizard.BackShownExactly | components/modals/rent-modal.tsx:178-185 | a Back button is on screen exactly on steps 1..5 |
| ListingWizard.OnBack | components/modals/rent-modal.tsx:84-92 | at CATEGORY it requests Close and leaves the state as is; elsewhere it decrements the step by one; fields are never touched |
| ListingWizard.OnNext | components/modals/rent-modal.tsx:94-96 | increments the step by one and changes nothing else |
| ListingWizard.ForwardEnabled | components/modals/rent-modal.tsx:178-365 | while a submit is in flight the INFO and PRICE forward buttons are disabled; on every page but INFO an enabled forward button means the page's gate field is truthy |
| ListingWizard.ForwardGateByStep | components/modals/rent-modal.tsx:186-364 | each page's forward gate by name: CATEGORY a category, LOCATION a location, INFO nothing in flight, IMAGES an image, DESCRIPTION a title and a description, PRICE nothing in flight and a truthy price |
| ListingWizard.BackEnabled | components/modals/rent-modal.tsx:178-358 | Back can be pressed exactly on steps 1..5 while nothing is in flight |
| ListingWizard.Enabled | components/modals/rent-modal.tsx:160-365 | an enabled Back only decrements the step and sends nothing; Back is dead while a submit is in flight; a field input is usable only on the page that renders it, and the title, description and price inputs not while a submit is in flight |
| ListingWizard.FieldInputsByStep | components/modals/rent-modal.tsx:167-353 | by step name, the inputs each page offers: CATEGORY the category tiles, LOCATION the country, INFO the three counters, IMAGES the image, DESCRIPTION title and description, PRICE the price, the last two pages only while nothing is in flight |
| ListingWizard.BackUndoesNext | components/modals/rent-modal.tsx:84-96 | Back after Next restores the state exactly, from any step at or past CATEGORY |
| ListingWizard.NextUndoesBack | components/modals/rent-modal.tsx:84-96 | Next after Back restores the state exactly, from any step but CATEGORY |
| FormValues.Set | components/modals/rent-modal.tsx:76-82 | `setValue`: the field takes the value, it is present afterwards, and every other field keeps its own value |
| FormValues.SetIdempotent | components/modals/rent-modal.tsx:76-82 | setting a field twice to the same value is the same as setting it once |
| ListingWizard.SetCustomValue | components/modals/rent-modal.tsx:76-82 | only field `id` changes, to the given value; the step and the loading flag stay |
| ListingWizard.BusyBlocksResubmit | components/modals/rent-modal.tsx:355-366 | while a submit is in flight Back is disabled, and so is the price page's submit button |
| ListingWizard.CategoryTiles | components/modals/rent-modal.tsx:167-176 | one tile per category, highlighted exactly when the stored category is its name |
| ListingWizard.PickCategoryHighlightsOne | components/modals/rent-modal.tsx:167-186 | after clicking tile i, tile i is the only highlighted tile and Next is enabled |
| ListingWizard.ActionLabelWith | components/modals/rent-modal.tsx:121-138 | the final label appears exactly on PRICE and "Next" everywhere else |
| RentModal.Init | components/modals/rent-modal.tsx:34-56 | starts at CATEGORY, not loading, with exactly the nine form fields: empty category, null location, counts 1 and empty image, price, title and description |
| RentModal.ActionLabel | components/modals/rent-modal.tsx:121-138 | "Create" exactly at PRICE, "Next" at every other counter value |
| RentModal.OnSubmit | components/modals/rent-modal.tsx:98-119 | away from PRICE it only advances and sends nothing; at PRICE it POSTs the form; success resets to the initial state and closes; failure keeps step and fields; loading ends false |
| RentModal.PressForward | components/modals/rent-modal.tsx:356-365 | away from PRICE the button advances one step and sends nothing; at PRICE it POSTs the form, ends not loading, and on success returns to the initial state |
| RentModal.Step | components/modals/rent-modal.tsx:160-370 | a disabled control does nothing; an enabled Back steps back silently; an enabled field input keeps the step and stores its value; an enabled Forward advances one step off PRICE, and at PRICE POSTs the form, returning to the initial state on success and keeping the state with loading cleared on failure; any effect comes from PRICE's button |
| RentModal.StepKeepsInv | components/modals/rent-modal.tsx:362-366 | an enabled action keeps the step in 0..5 and nothing in flight, because PRICE's button submits instead of calling `onNext` |
| RentModal.RunKeepsInv | components/modals/rent-modal.tsx:84-119 | every session of actions from a valid state keeps the step in 0..5 |
| RentModal.StepPostsOnlyFromPrice | components/modals/rent-modal.tsx:362-366 | the only request an action sends is a POST of the current form, sent from PRICE with a truthy price |
| RentModal.CategoryGateScenario | components/modals/rent-modal.tsx:186 | at the start Next and Back are unavailable; after storing "Beach" as the category, Next moves to LOCATION |
| EditPropertyModal.DecodeEncode | components/modals/edit-property-modal.tsx:70-80 | reading the nine editable values back from the form gives the values written |
| EditPropertyModal.Defaults | components/modals/edit-property-modal.tsx:70-80 | the form holds exactly the nine editable fields; with a listing they decode to the listing's values, its location being `locationValue`; without one, to the empty/zero fallbacks |
| EditPropertyModal.Init | components/modals/edit-property-modal.tsx:57-81 | starts at CATEGORY, not loading, with the listing-derived defaults |
| EditPropertyModal.ActionLabel | components/modals/edit-property-modal.tsx:162-179 | "Update" exactly at PRICE, "Next" at every other counter value |
| EditPropertyModal.OnSubmit | components/modals/edit-property-modal.tsx:135-160 | with a listing it PATCHes the form to that listing's id; success resets to the defaults at CATEGORY and closes; failure keeps step and fields; without a listing no request is made; loading ends false in every case |
| EditPropertyModal.MissingListingSendsNothing | components/modals/edit-property-modal.tsx:155-159 | without a listing, submitting sends nothing and clears the loading flag |
| EditPropertyModal.NavigationMatchesCreateWizard | components/modals/edit-property-modal.tsx:121-133 | every action other than the price page's submit has the same result as in the create wizard: same back, next and gates |
| EditPropertyModal.Decode | components/modals/edit-property-modal.tsx:83-102 | the form decodes exactly when all nine fields hold values of their kind, and the draft read back re-encodes to the very values the form holds |
| EditPropertyModal.PressForward | components/modals/edit-property-modal.tsx:121-160 | away from PRICE the button advances one step and sends nothing; at PRICE it PATCHes the opened listing, or sends nothing without one, and ends not loading |
| EditPropertyModal.Step | components/modals/edit-property-modal.tsx:201-407 | a disabled control does nothing; an enabled Back steps back silently; an enabled field input keeps the step and stores its value; an enabled Forward advances one step off PRICE, and at PRICE PATCHes the listing, resetting to its defaults on success and keeping the state with loading cleared on failure, or sends nothing without a listing; any effect comes from PRICE's button with a listing |
| EditPropertyModal.StepKeepsInv | components/modals/edit-property-modal.tsx:403-407 | an enabled action keeps the step in 0..5 and nothing in flight |
| EditPropertyModal.RunKeepsInv | components/modals/edit-property-modal.tsx:121-160 | every session of actions from a valid state keeps the step in 0..5 |
| EditPropertyModal.UneditedSessionPatchesListing | components/modals/edit-property-modal.tsx:135-141 | in any session without field edits the form keeps the listing's values, and every PATCH goes to the listing's id with a body that decodes to exactly the listing's values |
| SearchModal.Init | components/modals/search-modal.tsx:29-39 | starts at LOCATION with no location, counts 1, a range from today to today and zero nights |
| SearchModal.ActionLabel | components/modals/search-modal.tsx:119-125 | "Search" exactly at INFO, "Next" otherwise |
| SearchModal.Page | components/modals/search-modal.tsx:131-184 | the page rendered is the step's own page for 0..2 and the LOCATION page for any other counter |
| SearchModal.SecondaryLabel | components/modals/search-modal.tsx:127-129 | "Back" exactly when the step is not LOCATION |
| SearchModal.OnBack | components/modals/search-modal.tsx:60-62 | decrements the step without a check and changes nothing else |
| SearchModal.OnNext | components/modals/search-modal.tsx:64-66 | increments the step and changes nothing else |
| SearchModal.SetDateRange | components/modals/search-modal.tsx:41-50 | stores the range; the night count changes only when both ends are present |
| SearchModal.BuildQuery | components/modals/search-modal.tsx:79-93 | keeps every current key, overrides location and the three counts, and sets start/end date only when present; any other key keeps its value |
| SearchModal.UrlQuery | components/modals/search-modal.tsx:95-101 | the URL keeps exactly the string and number entries; null and undefined ones are dropped |
| SearchModal.OnSubmit | components/modals/search-modal.tsx:68-105 | away from INFO it only advances; at INFO it returns to LOCATION with location, dates and counts untouched, closes and navigates to `/` with the merged query |
| SearchModal.AbsentLocationDropsKey | components/modals/search-modal.tsx:79-101 | with no location picked, the new URL has no `locationValue`, even when the current one had it |
| SearchModal.UnrelatedKeysSurvive | components/modals/search-modal.tsx:79-101 | a kept key of the current query that the search does not override reaches the new URL unchanged |
| SearchModal.Enabled | components/modals/search-modal.tsx:145-178 | Back is usable exactly away from LOCATION; Next needs a location on LOCATION and a non-zero night count on DATE; INFO's Search is always usable; the location picker works exactly on LOCATION, the calendar only on DATE, the counters exactly on INFO |
| SearchModal.Step | components/modals/search-modal.tsx:145-222 | a disabled control does nothing; an enabled Back only decrements the step; an enabled Next off INFO advances one step; Search at INFO returns to LOCATION, closes and navigates to `/` with the merged query; each enabled picker or counter stores its own value and nothing else; any effect comes from INFO's button |
| SearchModal.StepKeepsInv | components/modals/search-modal.tsx:145-148 | an enabled action keeps the step in 0..2, since Back is offered only away from LOCATION and INFO's button submits |
| SearchModal.RunKeepsInv | components/modals/search-modal.tsx:60-71 | every session of actions from a valid state keeps the step in 0..2 |
| SearchModal.StepNavigatesOnlyFromInfo | components/modals/search-modal.tsx:222 | navigation happens only from INFO's button, which returns the wizard to LOCATION |
| ModalStore.Init | hooks/use-property-modal.ts:11-13 | the store starts closed with a null payload and valid; the alert store (hooks/use-alert-modal.ts:11-13) is the same |
| ModalStore.OnOpen | hooks/use-property-modal.ts:14 | afterwards the store is open with exactly the given payload, whatever it held; same for the alert store |
| ModalStore.OnClose | hooks/use-property-modal.ts:15 | afterwards the store is closed with a null payload, equal to the initial store; same for the alert store |
| ModalStore.LastOpenWins | hooks/use-property-modal.ts:14 | of two opens, only the second payload remains |
| ModalStore.CloseIdempotent | hooks/use-alert-modal.ts:15 | closing twice is the same as closing once |
| ModalStore.RunIsLastOp | hooks/use-property-modal.ts:11-16 | after any non-empty sequence of opens and closes, the store is what the last operation alone makes it |
| ModalStore.RunKeepsValid | hooks/use-alert-modal.ts:4-16 | any sequence of opens and closes keeps "open exactly when a payload is held" |
| Listings.Project | app/properties/PropertiesClient.tsx:105-132 | the payload carries the listing's twelve fields unchanged |
| Listings.ProjectIgnoresExtra | app/properties/PropertiesClient.tsx:105-132 | fields of a listing outside the twelve never reach the payload |
| Listings.FirstIndexOf | app/properties/PropertiesClient.tsx:102 | no index exactly when no listing has the id; otherwise an index of a listing with that id, and no earlier listing has it |
| Listings.Find | app/properties/PropertiesClient.tsx:102 | finds nothing exactly when no listing has the id; otherwise the first listing with that id |
| Listings.FindOwnId | app/properties/PropertiesClient.tsx:102 | with unique ids, looking up the id of listing i yields listing i |
| PropertiesClient.CardProps | app/properties/PropertiesClient.tsx:147-158 | each card gets its own listing with no reservation, reports the listing's id, shows both the edit and the delete button, and is disabled exactly while its listing is being deleted |
| PropertiesClient.CardDisabled | app/properties/PropertiesClient.tsx:154 | a card is disabled exactly when `deletingId` is its listing's id; an enabled card's delete button asks about its own listing |
| PropertiesClient.OnEdit | app/properties/PropertiesClient.tsx:97-141 | records the id; opens the property store with the projection of the first listing with that id, or leaves it as it was when none matches |
| PropertiesClient.OnDelete | app/properties/PropertiesClient.tsx:35-79 | always records the id as the item to delete; opens the alert store only when a listing matches |
| PropertiesClient.OnConfirm | app/properties/PropertiesClient.tsx:176-180 | requests deletion of the recorded item, then closes the alert store; nothing else on the page changes |
| PropertiesClient.DeletionSettled | app/properties/PropertiesClient.tsx:82-95 | only `deletingId` changes, to '', whatever the outcome; no request is sent; the only possible effect is a refresh, made exactly on success |
| PropertiesClient.Step | app/properties/PropertiesClient.tsx:147-183 | a press on a missing or disabled card, and a confirm with no alert on screen, change nothing; card presses and closes send nothing; an edit press leaves the alert alone and a delete press leaves the property store alone; a confirm with the alert on screen deletes the recorded item and closes the alert; each close resets its own store and nothing else; a settling request clears `deletingId` and refreshes exactly on success |
| PropertiesClient.InitInv | app/properties/PropertiesClient.tsx:28-33 | the page starts with valid stores and `deletingId` empty |
| PropertiesClient.StepKeepsInv | app/properties/PropertiesClient.tsx:35-183 | every page action keeps both stores valid, keeps `deletingId` empty, and keeps the alert's listing equal to the item to delete |
| PropertiesClient.RunKeepsInv | app/properties/PropertiesClient.tsx:28-183 | the invariant holds after any session of page actions |
| PropertiesClient.NoCardDisabled | app/properties/PropertiesClient.tsx:154 | a card is disabled exactly when its listing's id is empty, since `deletingId` is only ever reset |
| PropertiesClient.RenderedIffOpen | app/properties/PropertiesClient.tsx:161-183 | each modal is mounted exactly while its store is open |
| PropertiesClient.ConfirmDeletesShownListing | app/properties/PropertiesClient.tsx:171-180 | confirming deletes exactly the listing the alert shows |
| PropertiesClient.EditButtonOpensItsListing | app/properties/PropertiesClient.tsx:147-158 | with unique non-empty ids, card i's edit button opens the property store with listing i's projection |
| PropertiesClient.DeleteButtonAsksForItsListing | app/properties/PropertiesClient.tsx:147-158 | with unique non-empty ids, card i's delete button opens the alert with listing i and records its id |
| ListingCard.ActionId | components/listings/ListingCard.tsx:33 | the reported id is `actionId`, or '' when it is not given |
| ListingCard.Price | components/listings/ListingCard.tsx:65-71 | the reservation's total when there is a reservation, else the listing's price |
| ListingCard.ReservationDate | components/listings/ListingCard.tsx:73-82 | null exactly when there is no reservation, else the start and end joined by " - " |
| ListingCard.Subtitle | components/listings/ListingCard.tsx:104-106 | the category without a reservation; with one, the reservation's start and end joined by " - " |
| ListingCard.SubtitleFallsBackToCategory | components/listings/ListingCard.tsx:104-106 | the subtitle is the category without a reservation and the date range with one |
| ListingCard.HandleCancel | components/listings/ListingCard.tsx:40-51 | calls `onEdit(actionId)` exactly when the card is not disabled and `onEdit` is given |
| ListingCard.HandleDelete | components/listings/ListingCard.tsx:53-63 | calls `onDelete(actionId)` exactly when the card is not disabled and `onDelete` is given |
| ListingCard.ShowsNightSuffix | components/listings/ListingCard.tsx:107-110 | the "night" suffix is shown exactly when there is no reservation date, and then the price shown is the listing's own |
| ListingCard.EditButtonShown | components/listings/ListingCard.tsx:111-119 | a shown edit button on an enabled card calls `onEdit` with the card's id; no edit button without `onEdit` or with a missing or empty label |
| ListingCard.DeleteButtonShown | components/listings/ListingCard.tsx:120-127 | a shown delete button on an enabled card calls `onDelete` with the card's id; without the button no delete call can be made |
| ListingCard.ButtonsCallTheirHandlers | components/listings/ListingCard.tsx:107-127 | a shown, enabled button calls its handler with the card's id; a disabled card's buttons call nothing; the "night" suffix goes with the listing's own price |
| UserMenu.StartsClosed | components/navbar/UserMenu.tsx:28 | the menu starts closed, so no item is on screen until the first toggle shows the user's items |
| UserMenu.ToggleOpen | components/navbar/UserMenu.tsx:30-32 | the flag is negated |
| UserMenu.ToggleTwiceIsIdentity | components/navbar/UserMenu.tsx:30-32 | two toggles are the identity |
| UserMenu.CloseMenu | components/navbar/UserMenu.tsx:35-37 | the menu is closed afterwards |
| UserMenu.CloseMenuIdempotent | components/navbar/UserMenu.tsx:35-37 | closing twice is the same as closing once |
| UserMenu.OnRent | components/navbar/UserMenu.tsx:59-66 | without a user the login modal opens and the rent modal does not; with a user the rent modal opens |
| UserMenu.Label | components/navbar/UserMenu.tsx:103-154 | every item has a non-empty label |
| UserMenu.LabelNamesItem | components/navbar/UserMenu.tsx:103-154 | two items have the same label exactly when they are the same item |
| UserMenu.Items | components/navbar/UserMenu.tsx:96-157 | six distinct items, Logout among them, for a signed-in user; Login and Sign Up, and only those two, for a visitor; no two listed items share a label |
| UserMenu.VisibleItems | components/navbar/UserMenu.tsx:90-96 | no items while closed; the signed-in or visitor items while open |
| UserMenu.Select | components/navbar/UserMenu.tsx:96-157 | each item performs exactly one action; signed-in items then close the menu; Login and Sign Up leave it as it was |
| UserMenu.SelectRoutesModals | components/navbar/UserMenu.tsx:96-157 | each item's action, which no other item takes: Trips, Reservations, Favorites and Properties go to their own routes, "Airbnb my home" opens the rent wizard, Login and Sign Up open their modals, Logout signs out |
| Categories.TableShape | components/navbar/Categories.tsx:23-99 | the table has 15 entries, Beach through Lux in fixed order, none with an empty label |
| Categories.LabelsDistinct | components/navbar/Categories.tsx:115-121 | labels are pairwise distinct |
| Categories.Bar | components/navbar/Categories.tsx:101-125 | nothing is rendered unless the path is exactly `/`; otherwise one box per entry, highlighted exactly when its label equals the `category` parameter |
| Categories.AtMostOneSelected | components/navbar/Categories.tsx:103-120 | at most one box is highlighted, and none when the parameter is absent |

## Left out

- HTTP requests (axios POST/PATCH/DELETE), toasts, `router.refresh`/`router.push`, `signIn`/`signOut`: they appear only as effect tags, and a request's result is an `Outcome` parameter.
- The gap between a submit starting and its request settling: each submit is one atomic transition. Closing a modal while its request is in flight is not modelled. The in-flight state appears only as `ListingWizard.Busy`.
- react-hook-form internals: `handleSubmit`'s `required` validation of title, description and price is not modelled. The model assumes the price button always reaches `onSubmit`. `register` and `errors` are left out too. The form is a map of named fields.
- date-fns (`differenceInCalendarDays`, `formatISO`, `format`): the night count and formatted dates are inputs. query-string's `parse` and URL encoding: the current query is an already-parsed map. Only the key merge and the null/undefined skipping are modelled.
- Country lookup, the Map, CountrySelect, ImageUpload, Counter and Calendar: these are external components. A picked country is an opaque `Country` value. Values the Counter component would clamp are taken as they come.
- The click-outside `mousedown` listener of the user menu: this is DOM event plumbing.
- The rent, login and register modal stores are not part of this model. Opening them is an effect tag.
- The edit wizard is not linked to the property store that mounts it: a `Close` effect from the wizard is not fed back into `PropertiesClient`.
- Icons, styling, `console.log` calls and the presentation-only components: the dialog wrapper, the alert modal body, the navbar shell, the layout, the empty state, listing info and reservation panels. The page files (server data fetching) and the login modal are left out too.
- PropertiesClient.OnDelete: `listings` is fixed for the whole session in the model, so a refresh that changes a listing is not modelled. In the code `handleDelete` (components/listings/ListingCard.tsx:53-63) is memoized on `[actionId, disabled]` only and leaves out `onDelete`, whose own dependencies are `[alertModal, listings]` (app/properties/PropertiesClient.tsx:78). After a `router.refresh` that changes a listing, Delete therefore projects the pre-refresh copy of it into the alert. The id that gets deleted is still the right one. Edit is not affected, because `handleCancel` lists `onEdit` among its dependencies.

=== FILE: categories.dfy ===
/** The fixed category table and the category bar shown on the main page. */
module Categories {
  import opened Wrappers

  /** One category: `name` is the source's `label` (a Dafny keyword); the icon is presentation and left out. */
  datatype Category = Category(name: string, description: string)

  /** The table, in display order. */
  const Table: seq<Category> := [
    Category("Beach", "This property is close to the beach!"),
    Category("Windmills", "This property has windmills!"),
    Category("Modern", "This property is modern furnish!"),
    Category("Countryside", "This property is in the countryside!"),
    Category("Pools", "This property has a swimming pool!"),
    Category("Island", "This property is on an island!"),
    Category("Lake", "This property is close to a lake!"),
    Category("Ski", "This property is close to skiing resort!"),
    Category("Castle", "This property is in a castle!"),
    Category("Camping", "This property is in camping ground!"),
    Category("Arctic", "This property is in the north pole!"),
    Category("Cave", "This property is in the cave!"),
    Category("Desert", "This property is in the desert!"),
    Category("Barn", "This property is in the mormon village!"),
    Category("Lux", "This is luxurious property!")
  ]

  /** The labels, in display order. */
  function Labels(): (ls: seq<string>)
    ensures |ls| == |Table|
    ensures forall i :: 0 <= i < |Table| ==> ls[i] == Table[i].name
  {
    seq(|Table|, i requires 0 <= i < |Table| => Table[i].name)
  }

  /** The table has fifteen entries, Beach first and Lux last, and no empty label. */
  lemma TableShape()
    ensures |Table| == 15
    ensures Labels() == ["Beach", "Windmills", "Modern", "Countryside", "Pools", "Island", "Lake",
                         "Ski", "Castle", "Camping", "Arctic", "Cave", "Desert", "Barn", "Lux"]
    ensures forall i :: 0 <= i < |Table| ==> Table[i].name != ""
  {
  }

  /** Labels are pairwise distinct, so they can serve as list keys and as a stored category value. */
  lemma LabelsDistinct()
    ensures forall i, j :: 0 <= i < |Table| && 0 <= j < |Table| && i != j ==> Table[i].name != Table[j].name
  {
  }

  /** One rendered category box: its label and whether it is highlighted. */
  datatype CategoryBox = CategoryBox(name: string, selected: bool)

  /**
    The category bar for the current route: nothing unless the path is exactly `/`; otherwise one
    box per table entry, highlighted when its label equals the `category` query parameter.
  */
  function Bar(pathname: string, categoryParam: Option<string>): (r: Option<seq<CategoryBox>>)
    ensures r.Some? <==> pathname == "/"
    ensures r.Some? ==> |r.value| == |Table|
    ensures r.Some? ==> forall i :: 0 <= i < |Table| ==>
              r.value[i].name == Table[i].name &&
              (r.value[i].selected <==> categoryParam == Some(Table[i].name))
  {
    if pathname != "/" then None
    else Some(seq(|Table|, i requires 0 <= i < |Table| =>
                  CategoryBox(Table[i].name, categoryParam == Some(Table[i].name))))
  }

  /** At most one box is highlighted, and none when the query has no `category` parameter. */
  lemma AtMostOneSelected(pathname: string, categoryParam: Option<string>)
    requires pathname == "/"
    ensures forall i, j ::
              (0 <= i < |Table| && 0 <= j < |Table| &&
               Bar(pathname, categoryParam).value[i].selected &&
               Bar(pathname, categoryParam).value[j].selected) ==> i == j
    ensures categoryParam.None? ==>
              forall i :: 0 <= i < |Table| ==> !Bar(pathname, categoryParam).value[i].selected
  {
  }
}

=== FILE: edit_property_modal.dfy ===
/**
  The edit-listing wizard: defaults copied from the listing being edited, a submit with no step
  guard that PATCHes that listing, a missing-data branch, and "Update" as its last label.
*/
module EditPropertyModal {
  import opened Wrappers
  import opened FormValues
  import opened Effects
  import opened Listings
  import opened ListingWizard
  import RentModal

  /** The nine editable values of a listing, as the form holds them. */
  datatype Draft = Draft(
    category: string,
    locationValue: string,
    guestCount: int,
    roomCount: int,
    bathroomCount: int,
    imageSrc: string,
    price: int,
    title: string,
    description: string)

  /** The values the form falls back to when it has no listing. */
  const Blank := Draft("", "", 0, 0, 0, "", 0, "", "")

  /** The editable values of a listing: the location is its `locationValue`, the rest map one to one. */
  function DraftOf(l: ListingData): Draft {
    Draft(l.category, l.locationValue, l.guestCount, l.roomCount, l.bathroomCount,
          l.imageSrc, l.price, l.title, l.description)
  }

  /** A draft as form values. */
  function Encode(d: Draft): Fields {
    map[CategoryField := Str(d.category),
        LocationField := Str(d.locationValue),
        GuestCountField := Num(d.guestCount),
        RoomCountField := Num(d.roomCount),
        BathroomCountField := Num(d.bathroomCount),
        ImageSrcField := Str(d.imageSrc),
        PriceField := Num(d.price),
        TitleField := Str(d.title),
        DescriptionField := Str(d.description)]
  }

  /** Reads a draft back from form values; fails when a field is missing or of the wrong kind. */
  function Decode(f: Fields): (r: Option<Draft>)
    ensures r.Some? <==>
              Get(f, CategoryField).Str? && Get(f, LocationField).Str? && Get(f, GuestCountField).Num?
              && Get(f, RoomCountField).Num? && Get(f, BathroomCountField).Num? && Get(f, ImageSrcField).Str?
              && Get(f, PriceField).Num? && Get(f, TitleField).Str? && Get(f, DescriptionField).Str?
    ensures r.Some? ==> forall k :: k in Encode(r.value) ==> Get(f, k) == Encode(r.value)[k]
  {
    match (Get(f, CategoryField), Get(f, LocationField), Get(f, GuestCountField), Get(f, RoomCountField),
           Get(f, BathroomCountField), Get(f, ImageSrcField), Get(f, PriceField), Get(f, TitleField),
           Get(f, DescriptionField))
    case (Str(c), Str(loc), Num(g), Num(r), Num(b), Str(img), Num(p), Str(t), Str(desc)) =>
      Some(Draft(c, loc, g, r, b, img, p, t, desc))
    case _ => None
  }

  /** Decoding an encoded draft gives it back. */
  lemma DecodeEncode(d: Draft)
    ensures Decode(Encode(d)) == Some(d)
  {
  }

  /** `defaultValues`: each field copied from the listing when there is one, else its fallback. */
  function Defaults(listingData: Option<ListingData>): (f: Fields)
    ensures listingData.Some? ==> Decode(f) == Some(DraftOf(listingData.value))
    ensures listingData.None? ==> Decode(f) == Some(Blank)
    ensures f.Keys == Encode(Blank).Keys
  {
    DecodeEncode(Blank);
    match listingData
    case Some(l) => DecodeEncode(DraftOf(l)); Encode(DraftOf(l))
    case None => Encode(Blank)
  }

  /** The wizard as the modal mounts it for `listingData`. */
  function Init(listingData: Option<ListingData>): (s: State)
    ensures s.step == Index(Category) && !s.isLoading && s.fields == Defaults(listingData)
    ensures Inv(s)
  {
    State(Index(Category), Defaults(listingData), false)
  }

  /** `actionLabel`: "Update" exactly on the price step, "Next" on every other counter value. */
  function ActionLabel(step: int): (r: string)
    ensures r == "Update" <==> step == Index(Price)
    ensures r != "Update" ==> r == "Next"
  {
    ActionLabelWith(step, "Update")
  }

  /**
    `onSubmit`, which has no step guard. With a listing the form values are PATCHed to that
    listing's id; success resets the form to its defaults, returns to the first step and closes the
    modal; failure keeps step and values. Without a listing no request is made. The loading flag
    ends false in every case.
  */
  function OnSubmit(s: State, listingData: Option<ListingData>, outcome: Outcome): (t: Transition<State>)
    ensures !t.state.isLoading
    ensures listingData.None? ==> t.state == s.(isLoading := false) && t.effects == []
    ensures listingData.Some? ==> |t.effects| > 0 && t.effects[0] == Patch(listingData.value.id, s.fields)
    ensures listingData.Some? && outcome == Succeeded ==>
              t.state == Init(listingData) && t.effects == [Patch(listingData.value.id, s.fields), Refresh, Close]
    ensures listingData.Some? && outcome == Failed ==>
              t.state.step == s.step && t.state.fields == s.fields && |t.effects| == 1
  {
    var busy := Busy(s);
    match listingData
    case None => Transition(busy.(isLoading := false), [])
    case Some(l) =>
      var settled :=
        match outcome
        case Succeeded =>
          Transition(busy.(fields := Defaults(listingData), step := Index(Category)),
                     [Patch(l.id, s.fields), Refresh, Close])
        case Failed => Transition(busy, [Patch(l.id, s.fields)]);
      Transition(settled.state.(isLoading := false), settled.effects)
  }

  /** The forward button: the price page's calls `handleSubmit(onSubmit)`, every other page's calls `onNext`. */
  function PressForward(s: State, listingData: Option<ListingData>, outcome: Outcome): (t: Transition<State>)
    ensures Page(s.step) != Price ==> t.state.step == s.step + 1 && t.state.fields == s.fields && t.effects == []
    ensures Page(s.step) == Price ==> !t.state.isLoading
    ensures Page(s.step) == Price && listingData.None? ==> t.effects == []
    ensures Page(s.step) == Price && listingData.Some? ==>
              |t.effects| > 0 && t.effects[0] == Patch(listingData.value.id, s.fields)
  {
    if Page(s.step) == Price then OnSubmit(s, listingData, outcome) else OnNext(s)
  }

  /** One user action; `outcome` is how the request ends if the action submits. */
  datatype Action = Action(control: Control, outcome: Outcome)

  /** A press on a disabled control does nothing. */
  function Step(s: State, listingData: Option<ListingData>, a: Action): (t: Transition<State>)
    ensures !Enabled(s, a.control) ==> t == Transition(s, [])
    ensures a.control == Back && Enabled(s, a.control) ==> t.state.step == s.step - 1 && t.effects == []
    ensures a.control.SetField? ==> t.state.step == s.step && t.effects == []
    ensures a.control.SetField? && Enabled(s, a.control) ==> Get(t.state.fields, a.control.id) == a.control.v
    ensures t.effects != [] ==>
              a.control == Forward && Page(s.step) == Price && listingData.Some?
              && t.effects[0] == Patch(listingData.value.id, s.fields)
    ensures a.control == Forward && Enabled(s, a.control) && Page(s.step) != Price ==>
              t.state == s.(step := s.step + 1) && t.effects == []
    ensures a.control == Forward && Enabled(s, a.control) && Page(s.step) == Price && listingData.Some? ==>
              |t.effects| > 0 && t.effects[0] == Patch(listingData.value.id, s.fields)
              && (a.outcome == Succeeded ==> t.state == Init(listingData))
              && (a.outcome == Failed ==> t.state == s.(isLoading := false))
    ensures a.control == Forward && Enabled(s, a.control) && Page(s.step) == Price && listingData.None? ==>
              t.state == s.(isLoading := false) && t.effects == []
  {
    if !Enabled(s, a.control) then Transition(s, [])
    else
      match a.control
      case Back => OnBack(s)
      case Forward => PressForward(s, listingData, a.outcome)
      case SetField(id, v) => Transition(SetCustomValue(s, id, v), [])
  }

  /** A session: the actions in order, with every effect they requested. */
  function Run(s: State, listingData: Option<ListingData>, acts: seq<Action>): Transition<State>
    decreases |acts|
  {
    if |acts| == 0 then Transition(s, [])
    else
      var t := Step(s, listingData, acts[0]);
      var rest := Run(t.state, listingData, acts[1..]);
      Transition(rest.state, t.effects + rest.effects)
  }

  /** One enabled action keeps the counter within the six steps, exactly as in the create wizard. */
  lemma StepKeepsInv(s: State, listingData: Option<ListingData>, a: Action)
    requires Inv(s)
    ensures Inv(Step(s, listingData, a).state)
  {
  }

  lemma {:induction false} RunKeepsInv(s: State, listingData: Option<ListingData>, acts: seq<Action>)
    requires Inv(s)
    ensures Inv(Run(s, listingData, acts).state)
    decreases |acts|
  {
    if |acts| > 0 {
      StepKeepsInv(s, listingData, acts[0]);
      RunKeepsInv(Step(s, listingData, acts[0]).state, listingData, acts[1..]);
    }
  }

  /** Navigation and gating are the create wizard's: both modals share `ListingWizard`'s back, next and gates. */
  lemma NavigationMatchesCreateWizard(s: State, listingData: Option<ListingData>, c: Control, o: Outcome)
    requires c != Forward || Page(s.step) != Price
    ensures Step(s, listingData, Action(c, o)) == RentModal.Step(s, RentModal.Action(c, o))
  {
  }

  /** True when no action of the session edits a field. */
  predicate NoEdits(acts: seq<Action>) {
    forall i :: 0 <= i < |acts| ==> !acts[i].control.SetField?
  }

  /**
    Round trip of an unedited session: whatever the user does short of editing a field, the form
    keeps the listing's values, and every PATCH sent goes to the listing's id with a body that
    decodes to exactly the listing's editable values.
  */
  lemma {:induction false} UneditedSessionPatchesListing(s: State, l: ListingData, acts: seq<Action>)
    requires s.fields == Defaults(Some(l))
    requires NoEdits(acts)
    ensures Run(s, Some(l), acts).state.fields == Defaults(Some(l))
    ensures forall e :: e in Run(s, Some(l), acts).effects && e.Patch? ==>
              e.listingId == l.id && Decode(e.body) == Some(DraftOf(l))
    decreases |acts|
  {
    if |acts| > 0 {
      var t := Step(s, Some(l), acts[0]);
      assert t.state.fields == Defaults(Some(l));
      assert forall e :: e in t.effects && e.Patch? ==> e == Patch(l.id, s.fields);
      assert NoEdits(acts[1..]) by {
        forall i | 0 <= i < |acts[1..]| ensures !acts[1..][i].control.SetField? {
          assert acts[1..][i] == acts[i + 1];
        }
      }
      UneditedSessionPatchesListing(t.state, l, acts[1..]);
    }
  }

  /** Without a listing, submitting sends nothing and clears the loading flag. */
  lemma MissingListingSendsNothing(s: State, outcome: Outcome)
    ensures OnSubmit(s, None, outcome).effects == []
    ensures !OnSubmit(s, None, outcome).state.isLoading
  {
  }
}

=== FILE: effects.dfy ===
/** The side effects the UI's handlers request from their collaborators, as data. */
module Effects {
  import opened FormValues

  /** A value of a parsed or built URL query. `Null` and `Undefined` are dropped when the URL is built. */
  datatype QueryValue =
    | QStr(s: string)
    | QNum(n: int)
    | QNull
    | QUndefined

  type Query = map<string, QueryValue>

  /** One requested effect; the HTTP client, the router and the auth provider are not modelled. */
  datatype Effect =
    | Close                                   // the handler's own modal store is closed
    | Post(body: Fields)                      // POST /api/listings
    | Patch(listingId: string, body: Fields)  // PATCH /api/listings/{listingId}
    | DeleteListing(listingId: string)        // DELETE /api/listings/{listingId}
    | Refresh                                 // router.refresh()
    | Navigate(path: string, query: Query)    // router.push(path?query)
    | OpenLogin
    | OpenRegister
    | OpenRent
    | SignOut

  /** The state a handler leaves behind together with the effects it requested, in order. */
  datatype Transition<S> = Transition(state: S, effects: seq<Effect>)

  /** True when the effect is an HTTP request. */
  predicate IsRequest(e: Effect) {
    e.Post? || e.Patch? || e.DeleteListing?
  }
}

=== FILE: form_values.dfy ===
/** The loosely typed field map a react-hook-form form holds, with JavaScript truthiness. */
module FormValues {

  /** One form value. `Country` is a country-picker selection, an object and hence always truthy. */
  datatype Value =
    | Null
    | Str(s: string)
    | Num(n: int)
    | Country(code: string)

  /** The form's values keyed by field name. */
  type Fields = map<string, Value>

  /** JavaScript truthiness: `null`, `''` and `0` are falsy, every object is truthy. */
  predicate Truthy(v: Value) {
    match v
    case Null => false
    case Str(s) => s != ""
    case Num(n) => n != 0
    case Country(_) => true
  }

  /** `watch(name)`: the value of a field, `undefined` (here `Null`) when the form has none. */
  function Get(f: Fields, name: string): (v: Value)
    ensures name !in f ==> !Truthy(v)
    ensures name in f ==> v == f[name]
  {
    if name in f then f[name] else Null
  }

  /** `setValue(id, value)`: field `id` takes the value and every other field keeps its own. */
  function Set(f: Fields, id: string, v: Value): (r: Fields)
    ensures r.Keys == f.Keys + {id}
    ensures Get(r, id) == v
    ensures forall k :: k != id ==> Get(r, k) == Get(f, k)
  {
    f[id := v]
  }

  /** Setting a field twice to the same value is the same as setting it once. */
  lemma SetIdempotent(f: Fields, id: string, v: Value)
    ensures Set(Set(f, id, v), id, v) == Set(f, id, v)
  {
  }
}

=== FILE: listing_card.dfy ===
/** The listing card: which price it shows, its subtitle, which buttons it renders and what they call. */
module ListingCard {
  import opened Wrappers
  import opened Listings

  /**
    The card's props. `hasOnEdit` and `hasOnDelete` say whether the callbacks were passed;
    `disabled` is false when the prop is omitted.
  */
  datatype Props = Props(
    data: Listing,
    reservation: Option<Reservation>,
    hasOnEdit: bool,
    hasOnDelete: bool,
    disabled: bool,
    actionLabel: Option<string>,
    actionId: Option<string>)

  /** The id the buttons report: `actionId`, defaulting to the empty string. */
  function ActionId(p: Props): (id: string)
    ensures p.actionId.None? ==> id == ""
    ensures p.actionId.Some? ==> id == p.actionId.value
  {
    p.actionId.GetOr("")
  }

  /** The price shown: the reservation's total when there is one, else the listing's nightly price. */
  function Price(p: Props): (r: int)
    ensures p.reservation.Some? ==> r == p.reservation.value.totalPrice
    ensures p.reservation.None? ==> r == p.data.price
  {
    match p.reservation
    case Some(res) => res.totalPrice
    case None => p.data.price
  }

  /** `reservationDate`: the formatted range when there is a reservation, else null. */
  function ReservationDate(p: Props): (r: Option<string>)
    ensures r.None? <==> p.reservation.None?
    ensures r.Some? ==> r.value == p.reservation.value.startDate + " - " + p.reservation.value.endDate
  {
    match p.reservation
    case Some(res) => Some(res.startDate + " - " + res.endDate)
    case None => None
  }

  /** The second line: `reservationDate || data.category`. */
  function Subtitle(p: Props): (r: string)
    ensures p.reservation.None? ==> r == p.data.category
    ensures p.reservation.Some? ==> r == p.reservation.value.startDate + " - " + p.reservation.value.endDate
  {
    match ReservationDate(p)
    case Some(d) => if d != "" then d else p.data.category
    case None => p.data.category
  }

  /** The subtitle is the reservation's date range when there is one and the category otherwise. */
  lemma SubtitleFallsBackToCategory(p: Props)
    ensures p.reservation.None? ==> Subtitle(p) == p.data.category
    ensures p.reservation.Some? ==> Subtitle(p) == ReservationDate(p).value
  {
  }

  /** The "night" suffix appears exactly when there is no reservation. */
  predicate ShowsNightSuffix(p: Props)
    ensures ShowsNightSuffix(p) <==> ReservationDate(p).None?
    ensures ShowsNightSuffix(p) ==> Price(p) == p.data.price
  {
    p.reservation.None?
  }

  /** The edit button needs both the callback and a non-empty label; the delete button only its callback. */
  predicate EditButtonShown(p: Props)
    ensures EditButtonShown(p) && !p.disabled ==> HandleCancel(p) == Some(EditCall(ActionId(p)))
    ensures p.actionLabel == Some("") || p.actionLabel.None? ==> !EditButtonShown(p)
    ensures !p.hasOnEdit ==> !EditButtonShown(p)
  {
    p.hasOnEdit && p.actionLabel.Some? && p.actionLabel.value != ""
  }

  predicate DeleteButtonShown(p: Props)
    ensures DeleteButtonShown(p) && !p.disabled ==> HandleDelete(p) == Some(DeleteCall(ActionId(p)))
    ensures !DeleteButtonShown(p) ==> HandleDelete(p).None?
  {
    p.hasOnDelete
  }

  /** A call a card button makes on its parent. */
  datatype CardCall = EditCall(id: string) | DeleteCall(id: string)

  /** `handleCancel`: nothing when disabled, else `onEdit?.(actionId)`. */
  function HandleCancel(p: Props): (r: Option<CardCall>)
    ensures r.Some? <==> !p.disabled && p.hasOnEdit
    ensures r.Some? ==> r.value == EditCall(ActionId(p))
  {
    if p.disabled then None
    else if p.hasOnEdit then Some(EditCall(ActionId(p)))
    else None
  }

  /** `handleDelete`: nothing when disabled, else `onDelete?.(actionId)`. */
  function HandleDelete(p: Props): (r: Option<CardCall>)
    ensures r.Some? <==> !p.disabled && p.hasOnDelete
    ensures r.Some? ==> r.value == DeleteCall(ActionId(p))
  {
    if p.disabled then None
    else if p.hasOnDelete then Some(DeleteCall(ActionId(p)))
    else None
  }

  /**
    A rendered, enabled edit button calls `onEdit` with the card's id and a rendered, enabled delete
    button calls `onDelete` with it; a disabled card's buttons call nothing. The "night" suffix
    accompanies the listing's own nightly price.
  */
  lemma ButtonsCallTheirHandlers(p: Props)
    ensures EditButtonShown(p) && !p.disabled ==> HandleCancel(p) == Some(EditCall(ActionId(p)))
    ensures DeleteButtonShown(p) && !p.disabled ==> HandleDelete(p) == Some(DeleteCall(ActionId(p)))
    ensures p.disabled ==> HandleCancel(p).None? && HandleDelete(p).None?
    ensures ShowsNightSuffix(p) ==> Price(p) == p.data.price && ReservationDate(p).None?
  {
  }
}

=== FILE: listing_wizard.dfy ===
/**
  The six-step listing wizard shared by the create-listing and edit-listing modals: the step
  enumeration, the labels, back/next navigation, per-step gating of the forward control and the
  category picker. Each modal adds its own defaults, submit handler and final action label.
*/
module ListingWizard {
  import opened Wrappers
  import opened FormValues
  import opened Effects
  import Categories

  datatype Step = Category | Location | Info | Images | Description | Price

  /** The index of the last step; the wizard's step counter lives in `0..Last`. */
  const Last: int := 5

  /** The enum's numeric value. */
  function Index(s: Step): (i: int)
    ensures 0 <= i <= Last
  {
    match s
    case Category => 0
    case Location => 1
    case Info => 2
    case Images => 3
    case Description => 4
    case Price => 5
  }

  /** The step a counter value names, if any. */
  function StepAt(i: int): (r: Option<Step>)
    ensures r.Some? <==> 0 <= i <= Last
    ensures r.Some? ==> Index(r.value) == i
  {
    if i == 0 then Some(Category)
    else if i == 1 then Some(Location)
    else if i == 2 then Some(Info)
    else if i == 3 then Some(Images)
    else if i == 4 then Some(Description)
    else if i == 5 then Some(Price)
    else None
  }

  /** Counter values and steps correspond one to one. */
  lemma StepAtIndex(s: Step)
    ensures StepAt(Index(s)) == Some(s)
  {
  }

  /**
    The page the modal renders for a counter value: the page of that step, or the category page
    (the body the component starts from) when the counter names no step.
  */
  function Page(step: int): (p: Step)
    ensures 0 <= step <= Last ==> Index(p) == step
    ensures !(0 <= step <= Last) ==> p == Category
  {
    StepAt(step).GetOr(Category)
  }

  function StepName(s: Step): string {
    match s
    case Category => "Category"
    case Location => "Location"
    case Info => "Info"
    case Images => "Images"
    case Description => "Description"
    case Price => "Price"
  }

  /** `secondaryActionLabel`: undefined on the first step, else it names the step Back returns to. */
  function SecondaryLabel(step: int): (r: Option<string>)
    ensures r.None? <==> !(1 <= step <= Last)
  {
    match StepAt(step)
    case Some(Location) => Some("Back to Category")
    case Some(Info) => Some("Back to Location")
    case Some(Images) => Some("Back to Info")
    case Some(Description) => Some("Back to Images")
    case Some(Price) => Some("Back to Description")
    case _ => None
  }

  /** On steps 1 to 5 the secondary label names the step that Back returns to. */
  lemma SecondaryLabelNamesPrevious(step: int)
    requires 1 <= step <= Last
    ensures SecondaryLabel(step) == Some("Back to " + StepName(Page(step - 1)))
  {
    var name := StepName(Page(step - 1));
    if step == 1 {
      assert "Back to " + name == "Back to Category";
    } else if step == 2 {
      assert "Back to " + name == "Back to Location";
    } else if step == 3 {
      assert "Back to " + name == "Back to Info";
    } else if step == 4 {
      assert "Back to " + name == "Back to Images";
    } else {
      assert "Back to " + name == "Back to Description";
    }
  }

  /** The "Next" label of every step but the last, whose label `final` is the modal's own. */
  function ActionLabelWith(step: int, final: string): (r: string)
    requires final != "Next"
    ensures r == final <==> step == Last
    ensures r != final ==> r == "Next"
  {
    match StepAt(step)
    case Some(Price) => final
    case _ => "Next"
  }

  const CategoryField := "category"
  const LocationField := "location"
  const GuestCountField := "guestCount"
  const RoomCountField := "roomCount"
  const BathroomCountField := "bathroomCount"
  const ImageSrcField := "imageSrc"
  const PriceField := "price"
  const TitleField := "title"
  const DescriptionField := "description"

  /** A wizard: the step counter, the form's values and the submit-in-flight flag. */
  datatype State = State(step: int, fields: Fields, isLoading: bool)

  /** Whether the page's forward button is enabled: each page's own `disabled` condition, negated. */
  predicate ForwardEnabled(s: State)
    ensures (Page(s.step) == Info || Page(s.step) == Price) && s.isLoading ==> !ForwardEnabled(s)
    ensures GateField(Page(s.step)).Some? && ForwardEnabled(s) ==>
              Truthy(Get(s.fields, GateField(Page(s.step)).value))
  {
    match Page(s.step)
    case Category => Truthy(Get(s.fields, CategoryField))
    case Location => Truthy(Get(s.fields, LocationField))
    case Info => !s.isLoading
    case Images => Truthy(Get(s.fields, ImageSrcField))
    case Description => Truthy(Get(s.fields, TitleField)) && Truthy(Get(s.fields, DescriptionField))
    case Price => !s.isLoading && Truthy(Get(s.fields, PriceField))
  }

  /** The field each page's forward gate tests first; INFO's gate tests none. */
  function GateField(p: Step): Option<string> {
    match p
    case Category => Some(CategoryField)
    case Location => Some(LocationField)
    case Info => None
    case Images => Some(ImageSrcField)
    case Description => Some(TitleField)
    case Price => Some(PriceField)
  }

  /** Each page's forward gate, by step name. */
  lemma ForwardGateByStep(s: State)
    ensures Page(s.step) == Category ==> (ForwardEnabled(s) <==> Truthy(Get(s.fields, CategoryField)))
    ensures Page(s.step) == Location ==> (ForwardEnabled(s) <==> Truthy(Get(s.fields, LocationField)))
    ensures Page(s.step) == Info ==> (ForwardEnabled(s) <==> !s.isLoading)
    ensures Page(s.step) == Images ==> (ForwardEnabled(s) <==> Truthy(Get(s.fields, ImageSrcField)))
    ensures Page(s.step) == Description ==>
              (ForwardEnabled(s) <==> Truthy(Get(s.fields, TitleField)) && Truthy(Get(s.fields, DescriptionField)))
    ensures Page(s.step) == Price ==> (ForwardEnabled(s) <==> !s.isLoading && Truthy(Get(s.fields, PriceField)))
  {
  }

  /** The category page shows Back only when a secondary label exists; every other page always does. */
  predicate BackShown(s: State) {
    if Page(s.step) == Category then SecondaryLabel(s.step).Some? else true
  }

  /** Every Back button is disabled while a submit is in flight. */
  predicate BackEnabled(s: State)
    ensures BackEnabled(s) <==> 1 <= s.step <= Last && !s.isLoading
  {
    BackShown(s) && !s.isLoading
  }

  /** Back is on screen exactly on steps 1 to 5, so it never appears on the first step. */
  lemma BackShownExactly(s: State)
    ensures BackShown(s) <==> 1 <= s.step <= Last
  {
  }

  /** What the user can do: press Back, press the forward button, or change one field. */
  datatype Control = Back | Forward | SetField(id: string, v: Value)

  /** The page whose body renders the input for field `id`; no page renders an input for any other name. */
  function InputPage(id: string): Option<Step> {
    if id == CategoryField then Some(Category)
    else if id == LocationField then Some(Location)
    else if id == GuestCountField || id == RoomCountField || id == BathroomCountField then Some(Info)
    else if id == ImageSrcField then Some(Images)
    else if id == TitleField || id == DescriptionField then Some(Description)
    else if id == PriceField then Some(Price)
    else None
  }

  /** The registered text inputs, which carry `disabled={isLoading}`; the pickers and counters do not. */
  predicate LockedWhileLoading(id: string) {
    id == TitleField || id == DescriptionField || id == PriceField
  }

  /**
    Whether the control is usable in this state. A field input is usable only on the page that
    renders it, and the text inputs not while a submit is in flight.
  */
  predicate Enabled(s: State, c: Control)
    ensures c == Back && Enabled(s, c) ==> OnBack(s).effects == [] && OnBack(s).state.step == s.step - 1
    ensures c == Back && s.isLoading ==> !Enabled(s, c)
    ensures c.SetField? && Enabled(s, c) ==> InputPage(c.id) == Some(Page(s.step))
    ensures c.SetField? && s.isLoading && c.id in [TitleField, DescriptionField, PriceField] ==> !Enabled(s, c)
  {
    match c
    case Back => BackEnabled(s)
    case Forward => ForwardEnabled(s)
    case SetField(id, _) => InputPage(id) == Some(Page(s.step)) && !(LockedWhileLoading(id) && s.isLoading)
  }

  /** Which field inputs each page offers, by step name. */
  lemma FieldInputsByStep(s: State, id: string, v: Value)
    ensures Page(s.step) == Category ==> (Enabled(s, SetField(id, v)) <==> id == CategoryField)
    ensures Page(s.step) == Location ==> (Enabled(s, SetField(id, v)) <==> id == LocationField)
    ensures Page(s.step) == Info ==>
              (Enabled(s, SetField(id, v)) <==> id == GuestCountField || id == RoomCountField || id == BathroomCountField)
    ensures Page(s.step) == Images ==> (Enabled(s, SetField(id, v)) <==> id == ImageSrcField)
    ensures Page(s.step) == Description ==>
              (Enabled(s, SetField(id, v)) <==> !s.isLoading && (id == TitleField || id == DescriptionField))
    ensures Page(s.step) == Price ==> (Enabled(s, SetField(id, v)) <==> !s.isLoading && id == PriceField)
  {
  }

  /** `onBack`: on the first step the modal closes and the state stays; otherwise one step back. */
  function OnBack(s: State): (t: Transition<State>)
    ensures s.step == 0 ==> t.state == s && t.effects == [Close]
    ensures s.step != 0 ==> t.state.step == s.step - 1 && t.effects == []
    ensures t.state.fields == s.fields && t.state.isLoading == s.isLoading
  {
    if s.step == Index(Category) then Transition(s, [Close])
    else Transition(s.(step := s.step - 1), [])
  }

  /** `onNext`: one step forward, with no bound of its own and nothing else changed. */
  function OnNext(s: State): (t: Transition<State>)
    ensures t.state.step == s.step + 1
    ensures t.state.fields == s.fields && t.state.isLoading == s.isLoading
    ensures t.effects == []
  {
    Transition(s.(step := s.step + 1), [])
  }

  /** Back undoes Next from any step at or past the first. */
  lemma BackUndoesNext(s: State)
    requires s.step >= 0
    ensures OnBack(OnNext(s).state) == Transition(s, [])
  {
  }

  /** Next undoes Back from any step other than the first. */
  lemma NextUndoesBack(s: State)
    requires s.step != 0
    ensures OnNext(OnBack(s).state) == Transition(s, [])
  {
  }

  /** `setCustomValue(id, value)`: only field `id` changes; the step does not move. */
  function SetCustomValue(s: State, id: string, v: Value): (r: State)
    ensures r.step == s.step && r.isLoading == s.isLoading
    ensures Get(r.fields, id) == v
    ensures forall k :: k != id ==> Get(r.fields, k) == Get(s.fields, k)
  {
    s.(fields := Set(s.fields, id, v))
  }

  /** The state between `setIsLoading(true)` and the request's settlement. */
  function Busy(s: State): State {
    s.(isLoading := true)
  }

  /** While a submit is in flight neither Back nor the submit button can be pressed. */
  lemma BusyBlocksResubmit(s: State)
    ensures !Enabled(Busy(s), Back)
    ensures Page(s.step) == Price ==> !Enabled(Busy(s), Forward)
  {
  }

  /** The invariant of every reachable state: the counter names a step and nothing is in flight. */
  predicate Inv(s: State) {
    0 <= s.step <= Last && !s.isLoading
  }

  /** Which category tiles the category page highlights: the one whose name is the stored value. */
  function CategoryTiles(fields: Fields): (r: seq<bool>)
    ensures |r| == |Categories.Table|
    ensures forall i :: 0 <= i < |r| ==> (r[i] <==> Get(fields, CategoryField) == Str(Categories.Table[i].name))
  {
    seq(|Categories.Table|, i requires 0 <= i < |Categories.Table| =>
        Get(fields, CategoryField) == Str(Categories.Table[i].name))
  }

  /** Clicking tile `i` stores its name as the category. */
  function PickCategory(s: State, i: nat): State
    requires i < |Categories.Table|
  {
    SetCustomValue(s, CategoryField, Str(Categories.Table[i].name))
  }

  /** After clicking tile `i`, exactly that tile is highlighted and Next is enabled on the category page. */
  lemma PickCategoryHighlightsOne(s: State, i: nat)
    requires i < |Categories.Table|
    requires Page(s.step) == Category
    ensures ForwardEnabled(PickCategory(s, i))
    ensures forall j :: 0 <= j < |Categories.Table| ==> (CategoryTiles(PickCategory(s, i).fields)[j] <==> j == i)
  {
  }
}

=== FILE: listings.dfy ===
/** The listing records the front end receives from the server, and the payload its modal stores carry. */
module Listings {
  import opened Wrappers

  /**
    A listing as the properties page receives it. The twelve named fields are the ones the page
    projects; `extra` stands for any further properties of the record, which the projection drops.
  */
  datatype Listing = Listing(
    id: string,
    title: string,
    description: string,
    imageSrc: string,
    category: string,
    roomCount: int,
    bathroomCount: int,
    guestCount: int,
    locationValue: string,
    userId: string,
    price: int,
    createdAt: string,
    extra: map<string, string>)

  /** The payload of the property and alert modal stores: exactly the twelve projected fields. */
  datatype ListingData = ListingData(
    id: string,
    title: string,
    description: string,
    imageSrc: string,
    category: string,
    roomCount: int,
    bathroomCount: int,
    guestCount: int,
    locationValue: string,
    userId: string,
    price: int,
    createdAt: string)

  /** A booking shown on a listing card; the dates are taken already formatted. */
  datatype Reservation = Reservation(totalPrice: int, startDate: string, endDate: string)

  /** The destructure-and-rebuild the properties page performs before opening a modal store. */
  function Project(l: Listing): (d: ListingData)
    ensures d.id == l.id && d.title == l.title && d.description == l.description
    ensures d.imageSrc == l.imageSrc && d.category == l.category
    ensures d.roomCount == l.roomCount && d.bathroomCount == l.bathroomCount && d.guestCount == l.guestCount
    ensures d.locationValue == l.locationValue && d.userId == l.userId
    ensures d.price == l.price && d.createdAt == l.createdAt
  {
    ListingData(l.id, l.title, l.description, l.imageSrc, l.category, l.roomCount,
                l.bathroomCount, l.guestCount, l.locationValue, l.userId, l.price, l.createdAt)
  }

  /** Two listings that differ only in their further properties project to the same payload. */
  lemma ProjectIgnoresExtra(l: Listing, e: map<string, string>)
    ensures Project(l.(extra := e)) == Project(l)
  {
  }

  /** The index of the first listing whose id is `id`, as `Array.prototype.find` scans. */
  function FirstIndexOf(listings: seq<Listing>, id: string): (r: Option<nat>)
    ensures r.None? <==> forall i :: 0 <= i < |listings| ==> listings[i].id != id
    ensures r.Some? ==> r.value < |listings| && listings[r.value].id == id
    ensures r.Some? ==> forall j :: 0 <= j < r.value ==> listings[j].id != id
  {
    if |listings| == 0 then None
    else if listings[0].id == id then Some(0)
    else
      match FirstIndexOf(listings[1..], id)
      case None => None
      case Some(k) => Some(k + 1)
  }

  /** `listings.find((listing) => listing.id === id)`. */
  function Find(listings: seq<Listing>, id: string): (r: Option<Listing>)
    ensures r.None? <==> forall i :: 0 <= i < |listings| ==> listings[i].id != id
    ensures r.Some? ==> exists i :: 0 <= i < |listings| && listings[i] == r.value
                         && forall j :: 0 <= j < i ==> listings[j].id != id
    ensures r.Some? ==> r.value.id == id
  {
    match FirstIndexOf(listings, id)
    case None => None
    case Some(i) => Some(listings[i])
  }

  /** No two listings of the page share an id (the server's primary key). */
  predicate UniqueIds(listings: seq<Listing>) {
    forall i, j :: 0 <= i < j < |listings| ==> listings[i].id != listings[j].id
  }

  /** With unique ids, finding the id of the listing at index `i` yields that listing. */
  lemma FindOwnId(listings: seq<Listing>, i: nat)
    requires UniqueIds(listings)
    requires i < |listings|
    ensures Find(listings, listings[i].id) == Some(listings[i])
  {
  }
}

=== FILE: modal_store.dfy ===
/**
  The open/payload visibility store behind the property (edit) modal and the alert (delete
  confirmation) modal. Both hooks create the same two-field store, so it is defined once here.
*/
module ModalStore {
  import opened Wrappers

  datatype Store<T> = Store(isOpen: bool, listingData: Option<T>)

  /** The invariant both operations keep: the modal is open exactly when it carries a payload. */
  predicate Valid<T>(s: Store<T>) {
    s.isOpen <==> s.listingData.Some?
  }

  /** The store as created: closed, with no payload. */
  function Init<T>(): (s: Store<T>)
    ensures !s.isOpen && s.listingData.None?
    ensures Valid(s)
  {
    Store(false, None)
  }

  /** `onOpen(listingData)`: both fields are replaced, whatever the store held before. */
  function OnOpen<T>(s: Store<T>, d: T): (r: Store<T>)
    ensures r.isOpen && r.listingData == Some(d)
    ensures Valid(r)
  {
    Store(true, Some(d))
  }

  /** `onClose()`: closed, payload cleared, whatever the store held before. */
  function OnClose<T>(s: Store<T>): (r: Store<T>)
    ensures !r.isOpen && r.listingData.None?
    ensures Valid(r)
    ensures r == Init()
  {
    Store(false, None)
  }

  /** Opening twice keeps only the second payload. */
  lemma LastOpenWins<T>(s: Store<T>, a: T, b: T)
    ensures OnOpen(OnOpen(s, a), b) == OnOpen(s, b)
  {
  }

  /** Closing an already closed store changes nothing. */
  lemma CloseIdempotent<T>(s: Store<T>)
    ensures OnClose(OnClose(s)) == OnClose(s)
  {
  }

  /** One call a component makes on the store. */
  datatype Op<T> = Open(payload: T) | CloseOp

  function Apply<T>(s: Store<T>, op: Op<T>): Store<T> {
    match op
    case Open(d) => OnOpen(s, d)
    case CloseOp => OnClose(s)
  }

  function Run<T>(s: Store<T>, ops: seq<Op<T>>): Store<T>
    decreases |ops|
  {
    if |ops| == 0 then s else Run(Apply(s, ops[0]), ops[1..])
  }

  /** The store after a run is determined by the last operation only (or is the start state). */
  lemma {:induction false} RunIsLastOp<T>(s: Store<T>, ops: seq<Op<T>>)
    ensures |ops| == 0 ==> Run(s, ops) == s
    ensures |ops| > 0 ==> Run(s, ops) == Apply(s, ops[|ops| - 1])
    decreases |ops|
  {
    if |ops| > 1 {
      RunIsLastOp(Apply(s, ops[0]), ops[1..]);
      assert ops[1..][|ops[1..]| - 1] == ops[|ops| - 1];
    }
  }

  /** Every store reachable from a valid one by any mix of opens and closes is `Valid`. */
  lemma {:induction false} RunKeepsValid<T>(s: Store<T>, ops: seq<Op<T>>)
    requires Valid(s)
    ensures Valid(Run(s, ops))
    decreases |ops|
  {
    if |ops| > 0 {
      RunKeepsValid(Apply(s, ops[0]), ops[1..]);
    }
  }
}

=== FILE: properties_client.dfy ===
/**
  The "my properties" page: a card per listing, edit and delete requests from the cards opening the
  property and alert modal stores with the projected listing, and the delete confirmation.
*/
module PropertiesClient {
  import opened Wrappers
  import opened Effects
  import opened Listings
  import ModalStore
  import ListingCard

  /** The page's own state and the two global stores it drives. */
  datatype State = State(
    editingId: string,
    deletingId: string,
    itemToDeleteId: string,
    property: ModalStore.Store<ListingData>,
    alert: ModalStore.Store<ListingData>)

  function Init(): State {
    State("", "", "", ModalStore.Init(), ModalStore.Init())
  }

  /** The props the page passes to the card of listing `l`. */
  function CardProps(s: State, l: Listing): (r: ListingCard.Props)
    ensures r.data == l && r.reservation.None? && ListingCard.ActionId(r) == l.id
    ensures ListingCard.EditButtonShown(r) && ListingCard.DeleteButtonShown(r)
    ensures r.disabled <==> s.deletingId == l.id
  {
    ListingCard.Props(l, None, true, true, s.deletingId == l.id, Some("Edit property"), Some(l.id))
  }

  /** A card is disabled exactly when its listing is the one being deleted. */
  predicate CardDisabled(s: State, l: Listing)
    ensures CardDisabled(s, l) <==> s.deletingId == l.id
    ensures !CardDisabled(s, l) ==> ListingCard.HandleDelete(CardProps(s, l)) == Some(ListingCard.DeleteCall(l.id))
  {
    CardProps(s, l).disabled
  }

  /**
    `onEdit(id)`: records the id, then opens the property store with the projection of the first
    listing with that id; when none has it the stores are left as they were.
  */
  function OnEdit(s: State, listings: seq<Listing>, id: string): (r: State)
    ensures r.editingId == id
    ensures Find(listings, id).None? ==> r.property == s.property
    ensures Find(listings, id).Some? ==> r.property.isOpen && r.property.listingData == Some(Project(Find(listings, id).value))
    ensures r.alert == s.alert && r.deletingId == s.deletingId && r.itemToDeleteId == s.itemToDeleteId
  {
    var s1 := s.(editingId := id);
    match Find(listings, id)
    case None => s1
    case Some(l) => s1.(property := ModalStore.OnOpen(s1.property, Project(l)))
  }

  /**
    `onDelete(id)`: always records the id as the item to delete, then opens the alert store with
    the projection of the first listing with that id, if any.
  */
  function OnDelete(s: State, listings: seq<Listing>, id: string): (r: State)
    ensures r.itemToDeleteId == id
    ensures Find(listings, id).None? ==> r.alert == s.alert
    ensures Find(listings, id).Some? ==> r.alert.isOpen && r.alert.listingData == Some(Project(Find(listings, id).value))
    ensures r.property == s.property && r.deletingId == s.deletingId && r.editingId == s.editingId
  {
    var s1 := s.(itemToDeleteId := id);
    match Find(listings, id)
    case None => s1
    case Some(l) => s1.(alert := ModalStore.OnOpen(s1.alert, Project(l)))
  }

  /** The alert's confirm handler: request deletion of the recorded item, then close the alert. */
  function OnConfirm(s: State): (t: Transition<State>)
    ensures t.effects == [DeleteListing(s.itemToDeleteId)]
    ensures !t.state.alert.isOpen && t.state.alert.listingData.None?
    ensures t.state == s.(alert := ModalStore.Init())
  {
    Transition(s.(alert := ModalStore.OnClose(s.alert)), [DeleteListing(s.itemToDeleteId)])
  }

  /** A deletion request settling: `deletingId` is cleared either way, and the page refreshes on success. */
  function DeletionSettled(s: State, outcome: Outcome): (t: Transition<State>)
    ensures t.state.deletingId == "" && t.state.(deletingId := s.deletingId) == s
    ensures forall e :: e in t.effects ==> e == Refresh && !IsRequest(e)
    ensures |t.effects| <= 1 && (Refresh in t.effects <==> outcome == Succeeded)
  {
    Transition(s.(deletingId := ""), if outcome == Succeeded then [Refresh] else [])
  }

  /** The edit modal and the alert are mounted only while their store holds a payload. */
  predicate EditModalRendered(s: State) {
    s.property.listingData.Some?
  }

  predicate AlertRendered(s: State) {
    s.alert.listingData.Some?
  }

  /** What can happen on the page. */
  datatype Action =
    | EditPressed(index: nat)          // the edit button of the card at `index`
    | DeletePressed(index: nat)        // the delete button of the card at `index`
    | Confirm                          // the alert's confirm button
    | CloseProperty                    // the property store's `onClose`
    | CloseAlert                       // the alert store's `onClose`
    | Settled(outcome: Outcome)        // a deletion request settles

  /** A card button reaches its handler only through the card's guard; Confirm needs the alert on screen. */
  function Step(s: State, listings: seq<Listing>, a: Action): (t: Transition<State>)
    ensures a.EditPressed? && (a.index >= |listings| || CardDisabled(s, listings[a.index])) ==> t == Transition(s, [])
    ensures a.DeletePressed? && (a.index >= |listings| || CardDisabled(s, listings[a.index])) ==> t == Transition(s, [])
    ensures a == Confirm && !AlertRendered(s) ==> t == Transition(s, [])
    ensures (a.EditPressed? || a.DeletePressed? || a.CloseProperty? || a.CloseAlert?) ==> t.effects == []
    ensures a.EditPressed? ==> t.state.alert == s.alert && t.state.itemToDeleteId == s.itemToDeleteId
    ensures a.DeletePressed? ==> t.state.property == s.property && t.state.editingId == s.editingId
    ensures a == Confirm && AlertRendered(s) ==>
              t.state == s.(alert := ModalStore.Init()) && t.effects == [DeleteListing(s.itemToDeleteId)]
    ensures a == CloseProperty ==> t.state == s.(property := ModalStore.Init())
    ensures a == CloseAlert ==> t.state == s.(alert := ModalStore.Init())
    ensures a.Settled? ==> t.state == s.(deletingId := "") && (Refresh in t.effects <==> a.outcome == Succeeded)
  {
    match a
    case EditPressed(i) =>
      if i >= |listings| then Transition(s, [])
      else
        (match ListingCard.HandleCancel(CardProps(s, listings[i]))
         case Some(call) => Transition(OnEdit(s, listings, call.id), [])
         case None => Transition(s, []))
    case DeletePressed(i) =>
      if i >= |listings| then Transition(s, [])
      else
        (match ListingCard.HandleDelete(CardProps(s, listings[i]))
         case Some(call) => Transition(OnDelete(s, listings, call.id), [])
         case None => Transition(s, []))
    case Confirm => if AlertRendered(s) then OnConfirm(s) else Transition(s, [])
    case CloseProperty => Transition(s.(property := ModalStore.OnClose(s.property)), [])
    case CloseAlert => Transition(s.(alert := ModalStore.OnClose(s.alert)), [])
    case Settled(o) => DeletionSettled(s, o)
  }

  function Run(s: State, listings: seq<Listing>, acts: seq<Action>): Transition<State>
    decreases |acts|
  {
    if |acts| == 0 then Transition(s, [])
    else
      var t := Step(s, listings, acts[0]);
      var rest := Run(t.state, listings, acts[1..]);
      Transition(rest.state, t.effects + rest.effects)
  }

  /**
    The page's invariant: both stores are open exactly when they hold a payload, `deletingId` is
    never anything but the empty string, and the alert on screen shows the item a confirm deletes.
  */
  predicate Inv(s: State) {
    && ModalStore.Valid(s.property)
    && ModalStore.Valid(s.alert)
    && s.deletingId == ""
    && (s.alert.listingData.Some? ==> s.alert.listingData.value.id == s.itemToDeleteId)
  }

  lemma InitInv()
    ensures Inv(Init())
  {
  }

  lemma StepKeepsInv(s: State, listings: seq<Listing>, a: Action)
    requires Inv(s)
    ensures Inv(Step(s, listings, a).state)
  {
  }

  lemma {:induction false} RunKeepsInv(s: State, listings: seq<Listing>, acts: seq<Action>)
    requires Inv(s)
    ensures Inv(Run(s, listings, acts).state)
    decreases |acts|
  {
    if |acts| > 0 {
      StepKeepsInv(s, listings, acts[0]);
      RunKeepsInv(Step(s, listings, acts[0]).state, listings, acts[1..]);
    }
  }

  /** Under the invariant a card is disabled only if its listing's id is empty: `deletingId` is only ever reset. */
  lemma NoCardDisabled(s: State, l: Listing)
    requires Inv(s)
    ensures CardDisabled(s, l) <==> l.id == ""
  {
  }

  /** Under the invariant each modal is mounted exactly while its store is open. */
  lemma RenderedIffOpen(s: State)
    requires Inv(s)
    ensures EditModalRendered(s) <==> s.property.isOpen
    ensures AlertRendered(s) <==> s.alert.isOpen
  {
  }

  /** Confirming deletes exactly the listing the alert shows. */
  lemma ConfirmDeletesShownListing(s: State, listings: seq<Listing>)
    requires Inv(s)
    requires AlertRendered(s)
    ensures Step(s, listings, Confirm).effects == [DeleteListing(s.alert.listingData.value.id)]
  {
  }

  /** With unique ids, the edit button of card `i` opens the edit modal with exactly that listing's projection. */
  lemma EditButtonOpensItsListing(s: State, listings: seq<Listing>, i: nat)
    requires Inv(s)
    requires UniqueIds(listings)
    requires i < |listings| && listings[i].id != ""
    ensures Step(s, listings, EditPressed(i)).state.property == ModalStore.Store(true, Some(Project(listings[i])))
    ensures Step(s, listings, EditPressed(i)).state.editingId == listings[i].id
  {
  }

  /** With unique ids, the delete button of card `i` asks to confirm deleting exactly that listing. */
  lemma DeleteButtonAsksForItsListing(s: State, listings: seq<Listing>, i: nat)
    requires Inv(s)
    requires UniqueIds(listings)
    requires i < |listings| && listings[i].id != ""
    ensures Step(s, listings, DeletePressed(i)).state.alert == ModalStore.Store(true, Some(Project(listings[i])))
    ensures Step(s, listings, DeletePressed(i)).state.itemToDeleteId == listings[i].id
  {
  }
}

=== FILE: rent_modal.dfy ===
/** The create-listing wizard: fixed defaults, a step-guarded submit that POSTs, and "Create" as its last label. */
module RentModal {
  import opened Wrappers
  import opened FormValues
  import opened Effects
  import opened ListingWizard

  /** The form's default values: an empty category, no location, one of each count, empty texts. */
  function Defaults(): Fields {
    map[CategoryField := Str(""),
        LocationField := Null,
        GuestCountField := Num(1),
        RoomCountField := Num(1),
        BathroomCountField := Num(1),
        ImageSrcField := Str(""),
        PriceField := Str(""),
        TitleField := Str(""),
        DescriptionField := Str("")]
  }

  /** The wizard as the modal mounts it. */
  function Init(): (s: State)
    ensures s.step == Index(Category) && !s.isLoading
    ensures Get(s.fields, CategoryField) == Str("") && Get(s.fields, LocationField) == Null
    ensures Get(s.fields, GuestCountField) == Num(1) && Get(s.fields, RoomCountField) == Num(1)
    ensures Get(s.fields, BathroomCountField) == Num(1)
    ensures Get(s.fields, ImageSrcField) == Str("") && Get(s.fields, PriceField) == Str("")
    ensures Get(s.fields, TitleField) == Str("") && Get(s.fields, DescriptionField) == Str("")
    ensures s.fields.Keys == {CategoryField, LocationField, GuestCountField, RoomCountField, BathroomCountField,
                              ImageSrcField, PriceField, TitleField, DescriptionField}
    ensures Inv(s)
  {
    State(Index(Category), Defaults(), false)
  }

  /** `actionLabel`: "Create" exactly on the price step, "Next" on every other counter value. */
  function ActionLabel(step: int): (r: string)
    ensures r == "Create" <==> step == Index(Price)
    ensures r != "Create" ==> r == "Next"
  {
    ActionLabelWith(step, "Create")
  }

  /**
    `onSubmit`: away from the price step it only advances. On the price step the form values are
    POSTed; success resets the form, returns to the first step and closes the modal; failure keeps
    step and values. The loading flag ends false either way.
  */
  function OnSubmit(s: State, outcome: Outcome): (t: Transition<State>)
    ensures s.step != Index(Price) ==> t == OnNext(s)
    ensures s.step == Index(Price) ==> !t.state.isLoading && |t.effects| > 0 && t.effects[0] == Post(s.fields)
    ensures s.step == Index(Price) && outcome == Succeeded ==>
              t.state == Init() && t.effects == [Post(s.fields), Refresh, Close]
    ensures s.step == Index(Price) && outcome == Failed ==>
              t.state.step == s.step && t.state.fields == s.fields && t.effects == [Post(s.fields)]
  {
    if s.step != Index(Price) then OnNext(s)
    else
      var busy := Busy(s);
      var settled :=
        match outcome
        case Succeeded => Transition(busy.(fields := Defaults(), step := Index(Category)), [Post(s.fields), Refresh, Close])
        case Failed => Transition(busy, [Post(s.fields)]);
      Transition(settled.state.(isLoading := false), settled.effects)
  }

  /** The forward button: the price page's calls `handleSubmit(onSubmit)`, every other page's calls `onNext`. */
  function PressForward(s: State, outcome: Outcome): (t: Transition<State>)
    ensures Page(s.step) != Price ==> t.state.step == s.step + 1 && t.state.fields == s.fields && t.effects == []
    ensures Page(s.step) == Price ==> !t.state.isLoading && |t.effects| > 0 && t.effects[0] == Post(s.fields)
    ensures Page(s.step) == Price && outcome == Succeeded ==> t.state == Init()
  {
    if Page(s.step) == Price then OnSubmit(s, outcome) else OnNext(s)
  }

  /** One user action; `outcome` is how the request ends if the action submits. */
  datatype Action = Action(control: Control, outcome: Outcome)

  /** A press on a disabled control does nothing. */
  function Step(s: State, a: Action): (t: Transition<State>)
    ensures !Enabled(s, a.control) ==> t == Transition(s, [])
    ensures a.control == Back && Enabled(s, a.control) ==> t.state.step == s.step - 1 && t.effects == []
    ensures a.control.SetField? ==> t.state.step == s.step && t.effects == []
    ensures a.control.SetField? && Enabled(s, a.control) ==> Get(t.state.fields, a.control.id) == a.control.v
    ensures t.effects != [] ==> a.control == Forward && Page(s.step) == Price && t.effects[0] == Post(s.fields)
    ensures a.control == Forward && Enabled(s, a.control) && Page(s.step) != Price ==>
              t.state == s.(step := s.step + 1) && t.effects == []
    ensures a.control == Forward && Enabled(s, a.control) && Page(s.step) == Price ==>
              |t.effects| > 0 && t.effects[0] == Post(s.fields)
              && (a.outcome == Succeeded ==> t.state == Init())
              && (a.outcome == Failed ==> t.state == s.(isLoading := false))
  {
    if !Enabled(s, a.control) then Transition(s, [])
    else
      match a.control
      case Back => OnBack(s)
      case Forward => PressForward(s, a.outcome)
      case SetField(id, v) => Transition(SetCustomValue(s, id, v), [])
  }

  /** A session: the actions in order, with every effect they requested. */
  function Run(s: State, acts: seq<Action>): Transition<State>
    decreases |acts|
  {
    if |acts| == 0 then Transition(s, [])
    else
      var t := Step(s, acts[0]);
      var rest := Run(t.state, acts[1..]);
      Transition(rest.state, t.effects + rest.effects)
  }

  /** One enabled action keeps the counter within the six steps: the last page submits instead of advancing. */
  lemma StepKeepsInv(s: State, a: Action)
    requires Inv(s)
    ensures Inv(Step(s, a).state)
  {
  }

  lemma {:induction false} RunKeepsInv(s: State, acts: seq<Action>)
    requires Inv(s)
    ensures Inv(Run(s, acts).state)
    decreases |acts|
  {
    if |acts| > 0 {
      StepKeepsInv(s, acts[0]);
      RunKeepsInv(Step(s, acts[0]).state, acts[1..]);
    }
  }

  /** A POST is only ever sent from the price step, with a truthy price, carrying the form as it stands. */
  lemma StepPostsOnlyFromPrice(s: State, a: Action)
    requires Inv(s)
    ensures forall e :: e in Step(s, a).effects && IsRequest(e) ==>
              e == Post(s.fields) && s.step == Index(Price) && Truthy(Get(s.fields, PriceField))
  {
  }

  /** At the start Next is disabled and Back hidden; after choosing "Beach", Next moves to the location step. */
  lemma CategoryGateScenario(o: Outcome)
    ensures !Enabled(Init(), Forward) && !Enabled(Init(), Back)
    ensures Step(Init(), Action(Forward, o)).state == Init()
    ensures var picked := Step(Init(), Action(SetField(CategoryField, Str("Beach")), o)).state;
            Step(picked, Action(Forward, o)).state.step == Index(Location)
  {
  }
}

=== FILE: search_modal.dfy ===
/**
  The three-step search wizard: location, dates, then guest/room/bathroom counts. Its submit merges
  the search into the current URL query and navigates to the main page.
*/
module SearchModal {
  import opened Wrappers
  import opened Effects

  datatype SearchStep = Location | Date | Info

  const Last: int := 2

  function Index(s: SearchStep): (i: int)
    ensures 0 <= i <= Last
  {
    match s
    case Location => 0
    case Date => 1
    case Info => 2
  }

  /** The page rendered for a counter value: its step's page, or the location page (the default body). */
  function Page(step: int): (p: SearchStep)
    ensures 0 <= step <= Last ==> Index(p) == step
    ensures !(0 <= step <= Last) ==> p == Location
  {
    if step == 1 then Date else if step == 2 then Info else Location
  }

  /** A picked date range; the dates are taken already formatted as ISO strings. */
  datatype DateRange = DateRange(startDate: Option<string>, endDate: Option<string>)

  /** The search wizard's component state. `location` is the picked country's value. */
  datatype State = State(
    step: int,
    location: Option<string>,
    guestCount: int,
    roomCount: int,
    bathroomCount: int,
    dateRange: DateRange,
    dayCount: int)

  /** The wizard as mounted on `today`: first step, no location, one of each count, a zero-night range. */
  function Init(today: string): (s: State)
    ensures s.step == Index(Location) && s.location.None?
    ensures s.guestCount == 1 && s.roomCount == 1 && s.bathroomCount == 1
    ensures s.dateRange == DateRange(Some(today), Some(today)) && s.dayCount == 0
  {
    State(Index(Location), None, 1, 1, 1, DateRange(Some(today), Some(today)), 0)
  }

  /** `actionLabel`: "Search" exactly on the info step. */
  function ActionLabel(step: int): (r: string)
    ensures r == "Search" <==> step == Index(Info)
    ensures r != "Search" ==> r == "Next"
  {
    if step == Index(Info) then "Search" else "Next"
  }

  /** `secondaryActionLabel`: "Back" on every counter value except the first step's. */
  function SecondaryLabel(step: int): (r: Option<string>)
    ensures r.None? <==> step == Index(Location)
    ensures r.Some? ==> r.value == "Back"
  {
    if step == Index(Location) then None else Some("Back")
  }

  /** `onBack`: an unconditional decrement. */
  function OnBack(s: State): (r: State)
    ensures r.step == s.step - 1
    ensures r.(step := s.step) == s
  {
    s.(step := s.step - 1)
  }

  /** `onNext`: an unconditional increment. */
  function OnNext(s: State): (r: State)
    ensures r.step == s.step + 1
    ensures r.(step := s.step) == s
  {
    s.(step := s.step + 1)
  }

  const LocationKey := "locationValue"
  const GuestKey := "guestCount"
  const RoomKey := "roomCount"
  const BathroomKey := "bathroomCount"
  const StartKey := "startDate"
  const EndKey := "endDate"

  /** The keys the search always overrides. */
  function Overridden(): set<string> {
    {LocationKey, GuestKey, RoomKey, BathroomKey}
  }

  /**
    `updatedQuery`: every key of the current query is kept; the location and the three counts are
    overridden (an absent location overrides with `undefined`); the start and end dates are
    overridden only when present.
  */
  function BuildQuery(current: Query, s: State): (q: Query)
    ensures q.Keys == current.Keys + Overridden()
                      + (if s.dateRange.startDate.Some? then {StartKey} else {})
                      + (if s.dateRange.endDate.Some? then {EndKey} else {})
    ensures forall k ::
              (k in current && k !in Overridden()
               && !(k == StartKey && s.dateRange.startDate.Some?)
               && !(k == EndKey && s.dateRange.endDate.Some?)) ==> q[k] == current[k]
    ensures q[LocationKey] == (if s.location.Some? then QStr(s.location.value) else QUndefined)
    ensures q[GuestKey] == QNum(s.guestCount) && q[RoomKey] == QNum(s.roomCount)
    ensures q[BathroomKey] == QNum(s.bathroomCount)
    ensures s.dateRange.startDate.Some? ==> q[StartKey] == QStr(s.dateRange.startDate.value)
    ensures s.dateRange.endDate.Some? ==> q[EndKey] == QStr(s.dateRange.endDate.value)
  {
    var base := current[LocationKey := if s.location.Some? then QStr(s.location.value) else QUndefined]
                       [GuestKey := QNum(s.guestCount)]
                       [RoomKey := QNum(s.roomCount)]
                       [BathroomKey := QNum(s.bathroomCount)];
    var withStart := if s.dateRange.startDate.Some? then base[StartKey := QStr(s.dateRange.startDate.value)] else base;
    if s.dateRange.endDate.Some? then withStart[EndKey := QStr(s.dateRange.endDate.value)] else withStart
  }

  /** True for a value the URL keeps: `skipNull` drops nulls, and undefined values are always dropped. */
  predicate Kept(v: QueryValue) {
    v.QStr? || v.QNum?
  }

  /** The query that reaches the URL. */
  function UrlQuery(q: Query): (r: Query)
    ensures forall k :: k in r <==> k in q && Kept(q[k])
    ensures forall k :: k in r ==> r[k] == q[k]
  {
    map k | k in q && Kept(q[k]) :: q[k]
  }

  /**
    `onSubmit`: away from the info step it only advances. On the info step it returns to the first
    step, closes the modal and navigates to `/` with the merged query; the location, dates and
    counts are left as they were.
  */
  function OnSubmit(s: State, params: Option<Query>): (t: Transition<State>)
    ensures s.step != Index(Info) ==> t == Transition(OnNext(s), [])
    ensures s.step == Index(Info) ==> t.state == s.(step := Index(Location))
    ensures s.step == Index(Info) ==>
              t.effects == [Close, Navigate("/", UrlQuery(BuildQuery(params.GetOr(map[]), s)))]
  {
    if s.step != Index(Info) then Transition(OnNext(s), [])
    else
      var current := if params.Some? then params.value else map[];
      var url := UrlQuery(BuildQuery(current, s));
      Transition(s.(step := Index(Location)), [Close, Navigate("/", url)])
  }

  /** With no location picked, the search drops any `locationValue` the current URL had. */
  lemma AbsentLocationDropsKey(current: Query, s: State)
    requires s.location.None?
    ensures LocationKey !in UrlQuery(BuildQuery(current, s))
  {
  }

  /** Every kept key of the current query that the search does not override reaches the new URL unchanged. */
  lemma UnrelatedKeysSurvive(current: Query, s: State, k: string)
    requires k in current && Kept(current[k])
    requires k !in Overridden() && k != StartKey && k != EndKey
    ensures k in UrlQuery(BuildQuery(current, s))
    ensures UrlQuery(BuildQuery(current, s))[k] == current[k]
  {
  }

  /** What the user can do on the search wizard's pages. */
  datatype Control =
    | Back
    | Forward
    | PickLocation(location: Option<string>)
    | PickDates(range: DateRange, days: int)
    | SetGuests(n: int)
    | SetRooms(n: int)
    | SetBathrooms(n: int)

  /** Back is shown wherever a secondary label exists; each page's forward button has its own gate. */
  predicate Enabled(s: State, c: Control)
    ensures c == Back ==> (Enabled(s, c) <==> s.step != Index(Location))
    ensures c == Forward && Page(s.step) == Location ==> (Enabled(s, c) <==> s.location.Some?)
    ensures c == Forward && Page(s.step) == Date ==> (Enabled(s, c) <==> s.dayCount != 0)
    ensures c == Forward && Page(s.step) == Info ==> Enabled(s, c)
    ensures c.PickDates? && Enabled(s, c) ==> Page(s.step) == Date
    ensures c.PickLocation? ==> (Enabled(s, c) <==> Page(s.step) == Location)
    ensures (c.SetGuests? || c.SetRooms? || c.SetBathrooms?) ==> (Enabled(s, c) <==> Page(s.step) == Info)
  {
    match c
    case Back => SecondaryLabel(s.step).Some?
    case Forward =>
      (match Page(s.step)
       case Location => s.location.Some?
       case Date => s.dayCount != 0
       case Info => true)
    case PickLocation(_) => Page(s.step) == Location
    case PickDates(_, _) => Page(s.step) == Date
    case SetGuests(_) => Page(s.step) == Info
    case SetRooms(_) => Page(s.step) == Info
    case SetBathrooms(_) => Page(s.step) == Info
  }

  /**
    A new range from the calendar. The night count, computed outside the model as `days`, is
    refreshed only when both ends are present.
  */
  function SetDateRange(s: State, range: DateRange, days: int): (r: State)
    ensures r.dateRange == range
    ensures r.dayCount == (if range.startDate.Some? && range.endDate.Some? then days else s.dayCount)
    ensures r.(dateRange := s.dateRange, dayCount := s.dayCount) == s
  {
    var withRange := s.(dateRange := range);
    if range.startDate.Some? && range.endDate.Some? then withRange.(dayCount := days) else withRange
  }

  /** The info page's button calls `onSubmit`; the other pages' call `onNext`. A disabled control does nothing. */
  function Step(s: State, params: Option<Query>, c: Control): (t: Transition<State>)
    ensures !Enabled(s, c) ==> t == Transition(s, [])
    ensures c == Back && Enabled(s, c) ==> t.state == s.(step := s.step - 1) && t.effects == []
    ensures c != Back && c != Forward ==> t.state.step == s.step && t.effects == []
    ensures t.effects != [] ==> c == Forward && s.step == Index(Info) && t.state.step == Index(Location)
    ensures c == Forward && Enabled(s, c) && Page(s.step) != Info ==> t.state == s.(step := s.step + 1) && t.effects == []
    ensures c == Forward && Page(s.step) == Info ==>
              t.state == s.(step := Index(Location))
              && t.effects == [Close, Navigate("/", UrlQuery(BuildQuery(params.GetOr(map[]), s)))]
    ensures c.PickLocation? && Enabled(s, c) ==> t.state == s.(location := c.location)
    ensures c.PickDates? && Enabled(s, c) ==> t.state == SetDateRange(s, c.range, c.days)
    ensures c.SetGuests? && Enabled(s, c) ==> t.state == s.(guestCount := c.n)
    ensures c.SetRooms? && Enabled(s, c) ==> t.state == s.(roomCount := c.n)
    ensures c.SetBathrooms? && Enabled(s, c) ==> t.state == s.(bathroomCount := c.n)
  {
    if !Enabled(s, c) then Transition(s, [])
    else
      match c
      case Back => Transition(OnBack(s), [])
      case Forward => if Page(s.step) == Info then OnSubmit(s, params) else Transition(OnNext(s), [])
      case PickLocation(loc) => Transition(s.(location := loc), [])
      case PickDates(range, days) => Transition(SetDateRange(s, range, days), [])
      case SetGuests(n) => Transition(s.(guestCount := n), [])
      case SetRooms(n) => Transition(s.(roomCount := n), [])
      case SetBathrooms(n) => Transition(s.(bathroomCount := n), [])
  }

  function Run(s: State, params: Option<Query>, cs: seq<Control>): Transition<State>
    decreases |cs|
  {
    if |cs| == 0 then Transition(s, [])
    else
      var t := Step(s, params, cs[0]);
      var rest := Run(t.state, params, cs[1..]);
      Transition(rest.state, t.effects + rest.effects)
  }

  predicate Inv(s: State) {
    0 <= s.step <= Last
  }

  /** Back is only offered away from the first step, so its decrement never leaves the three steps. */
  lemma StepKeepsInv(s: State, params: Option<Query>, c: Control)
    requires Inv(s)
    ensures Inv(Step(s, params, c).state)
  {
  }

  lemma {:induction false} RunKeepsInv(s: State, params: Option<Query>, cs: seq<Control>)
    requires Inv(s)
    ensures Inv(Run(s, params, cs).state)
    decreases |cs|
  {
    if |cs| > 0 {
      StepKeepsInv(s, params, cs[0]);
      RunKeepsInv(Step(s, params, cs[0]).state, params, cs[1..]);
    }
  }

  /** Navigation only ever comes from the info page's button, which also returns the wizard to the first step. */
  lemma StepNavigatesOnlyFromInfo(s: State, params: Option<Query>, c: Control)
    requires Inv(s)
    ensures (exists e :: e in Step(s, params, c).effects && e.Navigate?) ==>
              s.step == Index(Info) && c == Forward && Step(s, params, c).state.step == Index(Location)
  {
  }
}

=== FILE: user_menu.dfy ===
/** The navbar's user menu: the open/closed toggle, the "Airbnb your home" shortcut and the menu items. */
module UserMenu {
  import opened Effects

  /** The menu starts closed. */
  const InitiallyOpen := false

  /** Nothing of the menu is on screen until it is first toggled. */
  lemma StartsClosed(loggedIn: bool)
    ensures VisibleItems(InitiallyOpen, loggedIn) == []
    ensures VisibleItems(ToggleOpen(InitiallyOpen), loggedIn) == Items(loggedIn)
  {
  }

  /** `toggleOpen`: flips the flag. */
  function ToggleOpen(isOpen: bool): (r: bool)
    ensures r != isOpen
  {
    !isOpen
  }

  /** Two toggles cancel out. */
  lemma ToggleTwiceIsIdentity(isOpen: bool)
    ensures ToggleOpen(ToggleOpen(isOpen)) == isOpen
  {
  }

  /** `closeMenu`: the menu is closed afterwards, whatever it was. */
  function CloseMenu(isOpen: bool): (r: bool)
    ensures !r
  {
    false
  }

  lemma CloseMenuIdempotent(isOpen: bool)
    ensures CloseMenu(CloseMenu(isOpen)) == CloseMenu(isOpen)
  {
  }

  /** `onRent`: without a signed-in user it opens the login modal, with one the rent modal. */
  function OnRent(loggedIn: bool): (r: seq<Effect>)
    ensures !loggedIn ==> r == [OpenLogin] && OpenRent !in r
    ensures loggedIn ==> r == [OpenRent] && OpenLogin !in r
  {
    if !loggedIn then [OpenLogin] else [OpenRent]
  }

  datatype MenuItem = Trips | Reservations | Favorites | Properties | AirbnbMyHome | Logout | Login | SignUp

  function Label(item: MenuItem): (r: string)
    ensures r != ""
  {
    match item
    case Trips => "My trips"
    case Reservations => "My reservations"
    case Favorites => "My favorites"
    case Properties => "My properties"
    case AirbnbMyHome => "Airbnb my home"
    case Logout => "Logout"
    case Login => "Login"
    case SignUp => "Sign Up"
  }

  /** No two items share a label, so the label on screen names the item it selects. */
  lemma LabelNamesItem(a: MenuItem, b: MenuItem)
    ensures Label(a) == Label(b) <==> a == b
  {
  }

  /** The items listed for a signed-in user, or for a visitor. */
  function Items(loggedIn: bool): (r: seq<MenuItem>)
    ensures |r| == (if loggedIn then 6 else 2)
    ensures (Logout in r) == loggedIn && (Login in r) == !loggedIn && (SignUp in r) == !loggedIn
    ensures forall i, j :: 0 <= i < j < |r| ==> r[i] != r[j] && Label(r[i]) != Label(r[j])
  {
    if loggedIn then [Trips, Reservations, Favorites, Properties, AirbnbMyHome, Logout]
    else [Login, SignUp]
  }

  /** The items on screen: none while the menu is closed. */
  function VisibleItems(isOpen: bool, loggedIn: bool): (r: seq<MenuItem>)
    ensures !isOpen ==> r == []
    ensures isOpen ==> r == Items(loggedIn)
  {
    if isOpen then Items(loggedIn) else []
  }

  /** What clicking an item does: its action, then closing the menu for the signed-in items only. */
  function Select(isOpen: bool, item: MenuItem): (t: Transition<bool>)
    ensures |t.effects| == 1
    ensures item in Items(true) ==> !t.state
    ensures item in Items(false) ==> t.state == isOpen
  {
    match item
    case Trips => Transition(CloseMenu(isOpen), [Navigate("/trips", map[])])
    case Reservations => Transition(CloseMenu(isOpen), [Navigate("/reservations", map[])])
    case Favorites => Transition(CloseMenu(isOpen), [Navigate("/favorites", map[])])
    case Properties => Transition(CloseMenu(isOpen), [Navigate("/properties", map[])])
    case AirbnbMyHome => Transition(CloseMenu(isOpen), [OpenRent])
    case Logout => Transition(CloseMenu(isOpen), [SignOut])
    case Login => Transition(isOpen, [OpenLogin])
    case SignUp => Transition(isOpen, [OpenRegister])
  }

  /** Each item's action, and no other item takes it: its route, the modal it opens, or signing out. */
  lemma SelectRoutesModals(isOpen: bool, item: MenuItem)
    ensures Select(isOpen, item).effects[0] == SignOut <==> item == Logout
    ensures Select(isOpen, item).effects[0] == OpenRent <==> item == AirbnbMyHome
    ensures Select(isOpen, item).effects[0] == OpenLogin <==> item == Login
    ensures Select(isOpen, item).effects[0] == OpenRegister <==> item == SignUp
    ensures Select(isOpen, item).effects[0] == Navigate("/trips", map[]) <==> item == Trips
    ensures Select(isOpen, item).effects[0] == Navigate("/reservations", map[]) <==> item == Reservations
    ensures Select(isOpen, item).effects[0] == Navigate("/favorites", map[]) <==> item == Favorites
    ensures Select(isOpen, item).effects[0] == Navigate("/properties", map[]) <==> item == Properties
  {
  }
}

=== FILE: wrappers.dfy ===
/** Optional values and request outcomes shared by every module. */
module Wrappers {

  /** A value that may be absent: JavaScript's `undefined` / `null` for one field. */
  datatype Option<+T> = None | Some(value: T) {

    /** The value, or `default` when absent (JavaScript's `x ?? default`). */
    function GetOr(default: T): T {
      match this
      case Some(v) => v
      case None => default
    }
  }

  /** How an HTTP request issued by the UI ended; the request itself is not modelled. */
  datatype Outcome = Succeeded | Failed
}
